=== FILE: README.md ===
# tiler_rotate_shim — a Dafny model of the ioctl and signal shim

`tiler_shim.c` is an `LD_PRELOAD` library that sits between a DRM client and
the kernel on an OMAP display. It does four things:

- It answers every generic dumb-buffer creation with an OMAP TILER allocation
  that is 8192 pixels wide. It then issues a non-blocking 270-degree commit
  for every listed plane whose rotation property is found; the commit's own
  result is only logged.
- It swaps the horizontal and vertical display sizes of every mode written
  with SETCRTC and of every mode read back with GETCRTC.
- It tracks every buffer, framebuffer and exported descriptor it sees in
  three fixed tables of 32 entries each, while a slot is free; a full table
  drops new entries silently.
- A one-shot `cleanup()` releases whatever is still tracked. It runs as the
  library's destructor, and the process also exits through it when a fault or
  termination signal arrives.

The model is pure. The shim's global state is the value `ShimState.Shim`: the
init flag, the three tables, the process's signal dispositions and the cleanup
guard. The real `ioctl` behind `dlsym` is the oracle record `Oracle.Kernel`,
with one typed answer per reply the shim reads back. An interposed call
(`Dispatch.Ioctl`) returns an `Outcome` that holds:

- the result and the caller's structure afterwards;
- the new shim state;
- the tables as they stood at the moment of the real call;
- every call the shim made to the real ioctl, in order.

`cleanup()` (`Finalizer.Cleanup`) yields the release calls it makes, in order.

Request numbers are built from the kernel's `_IOC` layout. The round trip
through the field extractors is proved, and so is the fact that every
intercepted request carries the DRM type `'d'`. The struct sizes are those of
the Linux UAPI headers.

Behaviour of the code that the model keeps as it is:

- Tracking happens whatever the real call returned (lines 336-388,
  452-461), so a failed creation or a failed ADDFB still occupies a slot.
- The rotation pass runs after every creation, including a failed one
  (lines 347-386).
- Nothing prevents a handle from being tracked twice
  (`Tracking.DuplicateEntriesPossible`).
- Removal matches the handle alone, whatever the descriptor (lines 118-136).
- The tiled height field is 16 bits wide, so the height GEM_NEW receives is
  the requested height modulo 65536 (line 334); below 65536 it is the
  requested height.

## Model

| member | source | states |
|---|---|---|
| Ioc.DecodeEncode | tiler_shim.c:303 | reading the direction, type, number and size fields back from an encoded request yields the fields it was built from; `Ioc.TypeOf` is the type extraction line 303 tests against `'d'` |
| Ioc.EncodeDecode | tiler_shim.c:303 | every 32-bit request number is the encoding of its own four fields, so the type test at line 303 classifies every request |
| DrmAbi.DrmRequestsCarryDrmType | tiler_shim.c:303-418 | every DRM request the shim intercepts or issues carries type `'d'`, so each intercept branch is reachable inside the type test |
| DrmAbi.AsInt | tiler_shim.c:337-388 | a 32-bit handle stored into an `int` keeps its bit pattern and is negative exactly when its top bit is set |
| Tracking.Insert | tiler_shim.c:86-107 | add_buffer/add_framebuffer write (fd, handle) into the lowest slot whose fd is -1 and change nothing else; a full table is left as it was |
| Tracking.InsertScan | tiler_shim.c:86-95 | the slot-by-slot loop computes the same table as `Insert` |
| Tracking.Remove | tiler_shim.c:118-136 | remove_buffer/remove_framebuffer clear the lowest slot whose handle matches, whatever its fd, to (-1, -1); without a match nothing changes |
| Tracking.RemoveScan | tiler_shim.c:118-126 | the slot-by-slot loop computes the same table as `Remove` |
| Tracking.InsertKeepsClean | tiler_shim.c:86-107 | inserting with a real descriptor keeps every free slot fully cleared |
| Tracking.RemoveKeepsClean | tiler_shim.c:118-136 | removal keeps every free slot fully cleared |
| Tracking.InsertThenRemove | tiler_shim.c:86-126 | on a table whose free slots are cleared, removing the handle just inserted restores the table when it had room and did not already hold that handle |
| Tracking.DuplicateEntriesPossible | tiler_shim.c:86-95 | adding the same (fd, handle) twice occupies two slots |
| Tracking.RecordFd | tiler_shim.c:109-116 | add_handle_fd writes fd into the first entry that is -1 or already holds fd; with neither, nothing changes |
| Tracking.RecordFdScan | tiler_shim.c:109-116 | the entry-by-entry loop computes the same array as `RecordFd` |
| Tracking.RecordFreeIsNoOp | tiler_shim.c:109-116 | recording -1 never changes the array |
| Tracking.RecordPresentIsNoOp | tiler_shim.c:109-116 | on a packed array, recording a descriptor already present changes nothing, so no descriptor is recorded twice |
| Tracking.RecordKeepsPacked | tiler_shim.c:109-116 | recording keeps the exported array packed: distinct descriptors first, unused entries after |
| Tracking.RecordAdds | tiler_shim.c:109-116 | on any array with an unused entry left, the recorded descriptors afterwards are exactly the ones before plus fd |
| Tracking.RecordIntoFullIsNoOp | tiler_shim.c:109-116 | a full array that lacks fd drops it silently |
| Tracking.RecordSequenceKeepsPacked | tiler_shim.c:109-116 | any sequence of recordings keeps a packed array packed |
| Tracking.NoDescriptorsPacked | tiler_shim.c:240-246 | the all -1 exported array init() leaves is packed |
| Tracking.EmptyTablesWellFormed | tiler_shim.c:240-246 | the tables init() leaves have 32 entries each, all cleared, and satisfy the tracker invariant |
| Signals.Substitute | tiler_shim.c:208-225 | signal() passes an explicit handler through; a request for SIG_DFL becomes the shim's handler exactly for the nine fault and termination signals |
| Signals.Signal | tiler_shim.c:204-226 | signal() returns the previous disposition, leaves the named signal with the substituted handler, and changes no other signal's |
| Signals.Register | tiler_shim.c:195-202 | register_handler installs the shim's handler only over SIG_DFL and never displaces another handler |
| Signals.RegisterAll | tiler_shim.c:248-256 | registering a list of signals guards each listed signal that had SIG_DFL, keeps every other listed handler, and leaves unlisted signals alone |
| Signals.RegisterAllGuards | tiler_shim.c:248-256 | after init's nine registrations no guarded signal has SIG_DFL |
| Signals.SignalKeepsGuard | tiler_shim.c:204-226 | no call of signal() can return a guarded signal to SIG_DFL |
| Signals.DefaultThenCustom | tiler_shim.c:208-225 | asking for SIG_DFL on SIGSEGV installs the guard; a custom handler set afterwards is installed verbatim and the guard is returned as the previous one |
| ShimState.Init | tiler_shim.c:229-258 | the first init() sets every table entry to -1 and guards the nine signals that had SIG_DFL; later calls change nothing |
| ShimState.InitIdempotent | tiler_shim.c:229-231 | calling init() twice is the same as calling it once |
| ShimState.InitValid | tiler_shim.c:240-256 | init() establishes the shim invariant: well-formed tables and guarded signals |
| Finalizer.Cleanup | tiler_shim.c:148-152 | the cleanup guard: a second cleanup makes no call, and every cleanup leaves the guard set |
| Finalizer.RunCleanup | tiler_shim.c:149-183 | the four loops of cleanup() produce the release calls and final state of `Cleanup` |
| Finalizer.CleanupRunsOnce | tiler_shim.c:150-152 | cleanup run twice in succession releases once |
| Finalizer.DrainContents | tiler_shim.c:161-178 | a descending drain releases exactly the occupied slots |
| Finalizer.ClosesContents | tiler_shim.c:154-159 | the first loop closes exactly the used exported descriptors |
| Finalizer.SweepContents | tiler_shim.c:180-182 | the final loop closes exactly descriptors 0 to 127 |
| Finalizer.CleanupKinds | tiler_shim.c:154-182 | the RMFB calls of a first cleanup are the framebuffer drain, its DESTROY_DUMB calls the buffer drain, its closes the exported descriptors and the sweep |
| Finalizer.CleanupRemovesTrackedFramebuffers | tiler_shim.c:161-168 | a first cleanup issues RMFB(fd, id) exactly for the occupied framebuffer slots |
| Finalizer.CleanupDestroysTrackedBuffers | tiler_shim.c:170-178 | a first cleanup issues DESTROY_DUMB(fd, handle) exactly for the occupied buffer slots |
| Finalizer.CleanupClosesDescriptors | tiler_shim.c:154-182 | a first cleanup closes exactly the exported descriptors and 0 to 127 |
| Finalizer.FramebuffersBeforeBuffers | tiler_shim.c:161-178 | no framebuffer is removed after a buffer has been destroyed |
| Finalizer.CleanupBeforeInitIssuesIoctls | tiler_shim.c:154-165 | a cleanup that runs before any ioctl closes descriptor 0 thirty-two times and then issues RMFB on descriptor 0 through the unresolved real-ioctl pointer (see Findings) |
| Finalizer.CleanupOfEmptyTables | tiler_shim.c:154-182 | with nothing tracked, a first cleanup only sweeps descriptors 0 to 127 |
| Finalizer.SafeCleanup | tiler_shim.c:148-183 | the corrected cleanup makes no ioctl before init() and is cleanup() itself once init() has run |
| Rotation.ScanProperties | tiler_shim.c:276-298 | the scan issues only name queries, one per property visited, in property order, and never more than there are properties |
| Rotation.ScanStops | tiler_shim.c:276-298 | the scan stops at the first property whose name query fails (returning that result) or is named "rotation" (returning its id), having queried exactly the names up to it; otherwise it returns -1 after querying them all |
| Rotation.RotationPropertyKey | tiler_shim.c:260-299 | get_rotation_property_key returns a failed property listing's result after one call; otherwise it lists at most 64 properties and scans them |
| Rotation.NoRotationProperty | tiler_shim.c:270-298 | when the property listing and every name query succeed and no property is named "rotation", the plane gets the -1 sentinel |
| Rotation.RotatePlanes | tiler_shim.c:358-386 | the plane loop issues only property queries and atomic commits |
| Rotation.RotationCommitsResolvedPlanes | tiler_shim.c:358-386 | the commits issued are exactly one non-blocking 270-degree commit per plane whose key is non-negative, in plane order |
| Rotation.RotateAll | tiler_shim.c:347-386 | the rotation pass first enables the atomic capability and lists 16 planes, then runs the plane loop over the planes the kernel returned, and never issues CREATE_DUMB |
| TiledAlloc.TiledRequest | tiler_shim.c:323-335 | GEM_NEW asks for width 8192, the height modulo 65536, and flags that are exactly the tiling (16-bit exactly for 16 bpp, 32-bit otherwise) plus write-combined and scan-out |
| TiledAlloc.WriteBack | tiler_shim.c:337-339 | the caller's structure gets GEM_NEW's handle, pitch = bytes per texel of the chosen tiling × 8192 (bpp/8 × 8192 for 16 and 32 bpp), size = pitch × height modulo 2^32, and nothing else changes |
| TiledAlloc.FullHdScenario | tiler_shim.c:337-339 | 1920x1080 at 32 bpp gets pitch 32768 and size 32768 × 1080 |
| Dispatch.SwapDisplay | tiler_shim.c:413-415 | hdisplay and vdisplay exchange and every other field of the CRTC stays |
| Dispatch.SwapDisplayInvolution | tiler_shim.c:407-450 | the GETCRTC swap undoes the SETCRTC swap |
| Dispatch.Ioctl | tiler_shim.c:301-464 | every call initialises the shim, keeps the signal dispositions init() set, never lets CREATE_DUMB reach the kernel, and forwards a non-DRM request untouched; its branches are `Dispatch.CreateDumbPath` (lines 312-390) and `Dispatch.Forward` (lines 392-463), whose per-request behaviour the lemmas below state |
| Dispatch.CreateDumbRewrite | tiler_shim.c:312-390 | CREATE_DUMB issues GEM_NEW and then the rotation pass, whose commits are one 270-degree commit per plane with a resolved rotation key; it returns GEM_NEW's result, writes back its handle, and tracks the buffer after the call whatever the result |
| Dispatch.SetCrtcSwapsBeforeCall | tiler_shim.c:407-419 | SETCRTC reaches the kernel with the sizes swapped, returns the kernel's result and tracks nothing |
| Dispatch.GetCrtcSwapsAfterCall | tiler_shim.c:441-450 | GETCRTC reaches the kernel unchanged and the caller reads the kernel's answer with the sizes swapped |
| Dispatch.SetThenGetRoundTrip | tiler_shim.c:407-450 | a mode set by SETCRTC and reported back unchanged by the kernel reads back as the caller set it |
| Dispatch.DestroyUntracksBeforeCall | tiler_shim.c:392-399 | DESTROY_DUMB untracks its handle before the real call, whatever the call returns |
| Dispatch.RmFbUntracksBeforeCall | tiler_shim.c:401-405 | RMFB untracks its framebuffer before the real call, whatever the call returns |
| Dispatch.AddFbTracksAfterCall | tiler_shim.c:452-455 | ADDFB tracks the framebuffer id the kernel wrote back, after the call and whatever its result |
| Dispatch.PrimeTracksAfterCall | tiler_shim.c:457-461 | PRIME_HANDLE_TO_FD records the exported descriptor after the call and whatever its result |
| Dispatch.OtherDrmForwarded | tiler_shim.c:418-419 | any other DRM request is forwarded unchanged, its answer returned verbatim, and the tables are untouched |
| Dispatch.IoctlKeepsValid | tiler_shim.c:301-464 | every interposed call keeps the tables well formed and the guarded signals caught |
| Dispatch.CreateThenDestroyRestores | tiler_shim.c:388-398 | on an initialised shim whose buffer table is clean, has a free slot and does not already hold the returned handle, creating a buffer and destroying that handle restores the buffer table |
| Dispatch.FullHdCreateDestroyScenario | tiler_shim.c:312-399 | on a fresh shim a 1920x1080 buffer lands in slot 0 with pitch 32768, and destroying it empties the buffer table |
| Dispatch.SafeCleanupAgreesAfterIoctl | tiler_shim.c:302 | once any ioctl has run, the corrected cleanup and cleanup() coincide |

## Left out

- The `dlsym` lookups of the real `ioctl` and `signal` (lines 206, 234-235) are not modelled. The real calls are the `Oracle.Kernel` record and the dispositions map.
- `printf` output is not modelled. Nor are the `ROTATE_DEBUG` flag (`test_flag`, lines 138-143, 233) and the debug print at lines 304-310.
- The GETPROPERTY and OBJ_GETPROPERTIES dumps after the call (lines 421-439) are not modelled. They only print, and change no state.
- Asynchronous signal delivery is not modelled, and neither is `signal_handler`'s `exit(1)` (lines 185-193). The destructor attribute is not modelled either: `Cleanup` is the routine both paths reach.
- The kernel is a stateless oracle: it does not remember earlier calls, and the model does not check the kernel's own behaviour.
- Byte layouts and pointers inside the argument structures are not modelled. Each structure is a record of the fields the shim reads or writes.
- Failures of the real `signal()` and `sigaction()` are not modelled.
- Oracle.Kernel: the plane and property lists the kernel returns hold at most 16 and 64 ids. The source trusts the kernel's reported count (lines 276, 358), and a larger count would index past its arrays. That case is not modelled.
- Dispatch.CreateDumbRewrite: the `gem_new` structure (line 319) is never initialised, so after a failed GEM_NEW the handle written back and tracked (lines 337, 388) is whatever the stack held; the model takes the oracle's unconstrained reply there.
- Finalizer.Cleanup: every call is treated as returning; a call that faults (such as RMFB through a NULL real-ioctl pointer) ends the process, and the events after it are not reached.
- Dispatch.Ioctl: requires the argument to be the structure the request number names. The source casts `argp` without checking.
- Dispatch.IoctlKeepsValid: requires fd != -1. Tracking a buffer or framebuffer on descriptor -1 would leave a slot that counts as free but still holds a handle.
- Tracking.InsertKeepsClean: requires fd != -1, for the same reason.

## Findings

| source | as written | input that shows it | evidently intended | confidence | as-written member | corrected member |
|---|---|---|---|---|---|---|
| tiler_shim.c:148-178 | `cleanup()` is a destructor that walks the tables whenever it runs. Only `init()` sets the free marker -1 and resolves `libc_ioctl`, and only the first ioctl runs `init()` | a process that loads the library and exits without any ioctl: the globals are zero, so every slot has fd 0 and counts as occupied, and cleanup closes descriptor 0 thirty-two times, then calls RMFB on descriptor 0 through the NULL `libc_ioctl`, which faults | a cleanup before `init()` releases nothing tracked and makes no ioctl | not executed | Finalizer.CleanupBeforeInitIssuesIoctls | Finalizer.SafeCleanup |

=== FILE: dispatch.dfy ===
/**
 * The interposed ioctl(fd, request, argp): lazy init, pre-call rewrites for
 * DRM requests, the real call, post-call rewrites and tracker bookkeeping.
 */
module Dispatch {
  import opened Ioc
  import opened DrmAbi
  import opened Oracle
  import opened Seqs
  import opened Tracking
  import opened ShimState
  import opened Rotation
  import opened TiledAlloc
  import opened Finalizer

  /**
   * What one interposed call produces: the result returned to the caller,
   * the caller's argument structure afterwards, the shim's state afterwards,
   * the tracker tables at the moment of the caller's real call (or of
   * GEM_NEW for CREATE_DUMB), and every call made to the real ioctl, in order.
   */
  datatype Outcome = Outcome(result: i32, arg: Arg, shim: Shim, atCall: Tables, issued: seq<Call>)

  /** `argp` points at the structure the request number names, for the requests the shim reads. */
  predicate Fits(request: nat, arg: Arg) {
    && (request == ModeCreateDumb ==> arg.DumbArg?)
    && (request == ModeDestroyDumb ==> arg.DestroyArg?)
    && (request == ModeRmFb ==> arg.FbIdArg?)
    && (request == ModeSetCrtc ==> arg.CrtcArg?)
    && (request == ModeGetCrtc ==> arg.CrtcArg?)
    && (request == ModeAddFb ==> arg.FbCmdArg?)
    && (request == PrimeHandleToFd ==> arg.PrimeArg?)
  }

  /** Exchange the horizontal and vertical display sizes of a CRTC's mode. */
  function SwapDisplay(c: Crtc): (r: Crtc)
    ensures r.mode.hdisplay == c.mode.vdisplay && r.mode.vdisplay == c.mode.hdisplay
    ensures r.(mode := c.mode) == c
    ensures r.mode.(hdisplay := c.mode.hdisplay, vdisplay := c.mode.vdisplay) == c.mode
  {
    c.(mode := c.mode.(hdisplay := c.mode.vdisplay, vdisplay := c.mode.hdisplay))
  }

  /** Swapping twice is the identity. */
  lemma SwapDisplayInvolution(c: Crtc)
    ensures SwapDisplay(SwapDisplay(c)) == c
  {
  }

  /**
   * CREATE_DUMB: issue GEM_NEW instead, fill in the caller's structure, run
   * the rotation side effect, then track the buffer whatever GEM_NEW returned.
   */
  function CreateDumbPath(s: Shim, fd: int, d: CreateDumb, k: Kernel): (o: Outcome)
  {
    var gem := TiledRequest(d);
    var (ret, handle) := k.gemNew(fd, gem);
    var t := s.tables;
    Outcome(
      ret,
      DumbArg(WriteBack(d, handle)),
      s.(tables := t.(buffers := Insert(t.buffers, fd, AsInt(handle)))),
      t,
      [Call(fd, OmapGemNew, GemNewArg(gem))] + RotateAll(k, fd))
  }

  /** Every request other than CREATE_DUMB reaches the real ioctl. */
  function Forward(s: Shim, fd: int, request: nat, arg: Arg, k: Kernel): (o: Outcome)
    requires Fits(request, arg)
    requires request != ModeCreateDumb
  {
    var drm := TypeOf(request) == DrmType;
    var t := s.tables;
    // Before the call: untrack destroyed buffers and removed framebuffers, swap SETCRTC's sizes.
    var t1 :=
      if drm && request == ModeDestroyDumb then t.(buffers := Remove(t.buffers, AsInt(arg.handle)))
      else if drm && request == ModeRmFb then t.(framebuffers := Remove(t.framebuffers, AsInt(arg.fbId)))
      else t;
    var sent := if drm && request == ModeSetCrtc then CrtcArg(SwapDisplay(arg.crtc)) else arg;
    var issued := [Call(fd, request, sent)];
    // The call, then: swap GETCRTC's sizes, track framebuffers and exported descriptors.
    if request == ModeGetCrtc then
      var (ret, c) := k.getCrtc(fd, arg.crtc);
      Outcome(ret, CrtcArg(SwapDisplay(c)), s.(tables := t1), t1, issued)
    else if request == ModeAddFb then
      var (ret, cmd) := k.addFb(fd, arg.cmd);
      Outcome(ret, FbCmdArg(cmd),
        s.(tables := t1.(framebuffers := Insert(t1.framebuffers, fd, AsInt(cmd.fbId)))), t1, issued)
    else if request == PrimeHandleToFd then
      var (ret, p) := k.primeHandleToFd(fd, arg.prime);
      Outcome(ret, PrimeArg(p), s.(tables := t1.(exported := RecordFd(t1.exported, p.fd))), t1, issued)
    else
      var (ret, after) := k.other(fd, request, sent);
      Outcome(ret, after, s.(tables := t1), t1, issued)
  }

  /** The interposed ioctl. */
  function Ioctl(s: Shim, fd: int, request: nat, arg: Arg, k: Kernel): (o: Outcome)
    requires Fits(request, arg)
    ensures o.shim.initDone
    ensures o.shim.handlers == Init(s).handlers && o.shim.cleanupStarted == s.cleanupStarted
    ensures forall c :: c in o.issued ==> c.request != ModeCreateDumb
    ensures TypeOf(request) != DrmType ==>
      var (ret, after) := k.other(fd, request, arg);
      o == Outcome(ret, after, Init(s), Init(s).tables, [Call(fd, request, arg)])
  {
    DrmRequestsCarryDrmType();
    var s0 := Init(s);
    if TypeOf(request) == DrmType && request == ModeCreateDumb then CreateDumbPath(s0, fd, arg.dumb, k)
    else Forward(s0, fd, request, arg, k)
  }

  /**
   * CREATE_DUMB is answered by GEM_NEW for an 8192-wide tiled buffer; the
   * caller gets GEM_NEW's result and handle, the rotation pass follows and
   * commits the planes whose rotation key resolves, and the buffer is tracked
   * after the call whatever the result.
   */
  lemma CreateDumbRewrite(s: Shim, fd: int, d: CreateDumb, k: Kernel)
    ensures var o := Ioctl(s, fd, ModeCreateDumb, DumbArg(d), k);
      var (ret, handle) := k.gemNew(fd, TiledRequest(d));
      var t := Init(s).tables;
      && o.result == ret
      && o.arg == DumbArg(WriteBack(d, handle))
      && o.issued == [Call(fd, OmapGemNew, GemNewArg(TiledRequest(d)))] + RotateAll(k, fd)
      && Commits(o.issued[3..]) == ExpectedCommits(k, fd, k.planeResources(fd).1)
      && o.atCall == t
      && o.shim.tables == t.(buffers := Insert(t.buffers, fd, AsInt(handle)))
  {
    DrmRequestsCarryDrmType();
    var o := CreateDumbPath(Init(s), fd, d, k);
    assert Ioctl(s, fd, ModeCreateDumb, DumbArg(d), k) == o;
    assert o.issued[3..] == RotateAll(k, fd)[2..];
    RotationCommitsResolvedPlanes(k, fd, k.planeResources(fd).1);
  }

  /** SETCRTC reaches the real ioctl with the display sizes swapped; its result is returned. */
  lemma SetCrtcSwapsBeforeCall(s: Shim, fd: int, c: Crtc, k: Kernel)
    ensures var o := Ioctl(s, fd, ModeSetCrtc, CrtcArg(c), k);
      && o.issued == [Call(fd, ModeSetCrtc, CrtcArg(SwapDisplay(c)))]
      && o.result == k.other(fd, ModeSetCrtc, CrtcArg(SwapDisplay(c))).0
      && o.shim.tables == Init(s).tables
  {
    DrmRequestsCarryDrmType();
  }

  /** GETCRTC reaches the real ioctl unchanged; the caller sees the kernel's answer with the sizes swapped. */
  lemma GetCrtcSwapsAfterCall(s: Shim, fd: int, c: Crtc, k: Kernel)
    ensures var o := Ioctl(s, fd, ModeGetCrtc, CrtcArg(c), k);
      var (ret, answer) := k.getCrtc(fd, c);
      && o.issued == [Call(fd, ModeGetCrtc, CrtcArg(c))]
      && o.result == ret
      && o.arg == CrtcArg(SwapDisplay(answer))
      && o.shim.tables == Init(s).tables
  {
    DrmRequestsCarryDrmType();
  }

  /**
   * If the kernel reports on GETCRTC the mode it was given by SETCRTC, the
   * caller reads back the mode it set.
   */
  lemma SetThenGetRoundTrip(s: Shim, fd: int, c: Crtc, c2: Crtc, k: Kernel, k2: Kernel)
    requires k2.getCrtc(fd, c2).1.mode == SwapDisplay(c).mode
    ensures var o1 := Ioctl(s, fd, ModeSetCrtc, CrtcArg(c), k);
      var o2 := Ioctl(o1.shim, fd, ModeGetCrtc, CrtcArg(c2), k2);
      o2.arg.CrtcArg? && o2.arg.crtc.mode == c.mode
  {
    SetCrtcSwapsBeforeCall(s, fd, c, k);
    var o1 := Ioctl(s, fd, ModeSetCrtc, CrtcArg(c), k);
    GetCrtcSwapsAfterCall(o1.shim, fd, c2, k2);
  }

  /** DESTROY_DUMB untracks its handle before the real call, whatever that call returns. */
  lemma DestroyUntracksBeforeCall(s: Shim, fd: int, handle: u32, k: Kernel)
    ensures var o := Ioctl(s, fd, ModeDestroyDumb, DestroyArg(handle), k);
      var t := Init(s).tables;
      && o.atCall == t.(buffers := Remove(t.buffers, AsInt(handle)))
      && o.shim.tables == o.atCall
      && o.issued == [Call(fd, ModeDestroyDumb, DestroyArg(handle))]
      && o.result == k.other(fd, ModeDestroyDumb, DestroyArg(handle)).0
  {
    DrmRequestsCarryDrmType();
  }

  /** RMFB untracks its framebuffer before the real call, whatever that call returns. */
  lemma RmFbUntracksBeforeCall(s: Shim, fd: int, fbId: u32, k: Kernel)
    ensures var o := Ioctl(s, fd, ModeRmFb, FbIdArg(fbId), k);
      var t := Init(s).tables;
      && o.atCall == t.(framebuffers := Remove(t.framebuffers, AsInt(fbId)))
      && o.shim.tables == o.atCall
      && o.issued == [Call(fd, ModeRmFb, FbIdArg(fbId))]
      && o.result == k.other(fd, ModeRmFb, FbIdArg(fbId)).0
  {
    DrmRequestsCarryDrmType();
  }

  /** ADDFB tracks the framebuffer id the kernel wrote back, after the call and whatever its result. */
  lemma AddFbTracksAfterCall(s: Shim, fd: int, cmd: FbCmd, k: Kernel)
    ensures var o := Ioctl(s, fd, ModeAddFb, FbCmdArg(cmd), k);
      var (ret, answer) := k.addFb(fd, cmd);
      var t := Init(s).tables;
      && o.atCall == t
      && o.shim.tables == t.(framebuffers := Insert(t.framebuffers, fd, AsInt(answer.fbId)))
      && o.result == ret && o.arg == FbCmdArg(answer)
  {
    DrmRequestsCarryDrmType();
  }

  /** PRIME_HANDLE_TO_FD records the descriptor the kernel wrote back, after the call and whatever its result. */
  lemma PrimeTracksAfterCall(s: Shim, fd: int, p: PrimeHandle, k: Kernel)
    ensures var o := Ioctl(s, fd, PrimeHandleToFd, PrimeArg(p), k);
      var (ret, answer) := k.primeHandleToFd(fd, p);
      var t := Init(s).tables;
      && o.atCall == t
      && o.shim.tables == t.(exported := RecordFd(t.exported, answer.fd))
      && o.result == ret && o.arg == PrimeArg(answer)
  {
    DrmRequestsCarryDrmType();
  }

  /** Every other DRM request is forwarded unchanged, its answer returned verbatim, the tables untouched. */
  lemma OtherDrmForwarded(s: Shim, fd: int, request: nat, arg: Arg, k: Kernel)
    requires TypeOf(request) == DrmType
    requires request !in {ModeCreateDumb, ModeDestroyDumb, ModeRmFb, ModeSetCrtc, ModeGetCrtc, ModeAddFb, PrimeHandleToFd}
    ensures var o := Ioctl(s, fd, request, arg, k);
      && o.issued == [Call(fd, request, arg)]
      && (o.result, o.arg) == k.other(fd, request, arg)
      && o.shim == Init(s)
  {
  }

  /** Once initialised, the shim keeps its tables well formed and its guarded signals caught. */
  lemma IoctlKeepsValid(s: Shim, fd: int, request: nat, arg: Arg, k: Kernel)
    requires Valid(s) && Fits(request, arg)
    requires fd != Free
    ensures Valid(Ioctl(s, fd, request, arg, k).shim)
  {
    DrmRequestsCarryDrmType();
    InitValid(s);
    var s0 := Init(s);
    var t := s0.tables;
    if request == ModeCreateDumb {
      InsertKeepsClean(t.buffers, fd, AsInt(k.gemNew(fd, TiledRequest(arg.dumb)).1));
    } else if request == ModeDestroyDumb {
      RemoveKeepsClean(t.buffers, AsInt(arg.handle));
    } else if request == ModeRmFb {
      RemoveKeepsClean(t.framebuffers, AsInt(arg.fbId));
    } else if request == ModeAddFb {
      InsertKeepsClean(t.framebuffers, fd, AsInt(k.addFb(fd, arg.cmd).1.fbId));
    } else if request == PrimeHandleToFd {
      RecordKeepsPacked(t.exported, k.primeHandleToFd(fd, arg.prime).1.fd);
    }
  }

  /**
   * Creating a buffer and then destroying the handle the kernel returned
   * leaves the buffer table as it was, when it had room and did not already
   * hold that handle.
   */
  lemma CreateThenDestroyRestores(s: Shim, fd: int, d: CreateDumb, k: Kernel)
    requires s.initDone && Clean(s.tables.buffers)
    requires exists i :: 0 <= i < |s.tables.buffers| && IsFree(s.tables.buffers[i])
    requires forall i :: 0 <= i < |s.tables.buffers| ==>
      s.tables.buffers[i].handle != AsInt(k.gemNew(fd, TiledRequest(d)).1)
    ensures var handle := k.gemNew(fd, TiledRequest(d)).1;
      var o1 := Ioctl(s, fd, ModeCreateDumb, DumbArg(d), k);
      var o2 := Ioctl(o1.shim, fd, ModeDestroyDumb, DestroyArg(handle), k);
      o2.shim.tables.buffers == s.tables.buffers
  {
    var handle := k.gemNew(fd, TiledRequest(d)).1;
    CreateDumbRewrite(s, fd, d, k);
    var o1 := Ioctl(s, fd, ModeCreateDumb, DumbArg(d), k);
    DestroyUntracksBeforeCall(o1.shim, fd, handle, k);
    InsertThenRemove(s.tables.buffers, fd, AsInt(handle));
  }

  /**
   * A 1920x1080 32 bpp buffer created on a fresh shim gets pitch 32768 and
   * size 32768 * 1080 and is tracked in slot 0; destroying it empties the
   * buffer table again.
   */
  lemma FullHdCreateDestroyScenario(h: Signals.Dispositions, fd: int, k: Kernel)
    ensures var d := CreateDumb(1080, 1920, 32, 0, 0, 0, 0);
      var handle := k.gemNew(fd, TiledRequest(d)).1;
      var o1 := Ioctl(Loaded(h), fd, ModeCreateDumb, DumbArg(d), k);
      var o2 := Ioctl(o1.shim, fd, ModeDestroyDumb, DestroyArg(handle), k);
      && o1.arg.dumb.pitch == 32768 && o1.arg.dumb.size == 32768 * 1080
      && o1.shim.tables.buffers[0] == Slot(fd, AsInt(handle))
      && o2.shim.tables.buffers == EmptySlots()
  {
    var d := CreateDumb(1080, 1920, 32, 0, 0, 0, 0);
    var handle := k.gemNew(fd, TiledRequest(d)).1;
    CreateDumbRewrite(Loaded(h), fd, d, k);
    var o1 := Ioctl(Loaded(h), fd, ModeCreateDumb, DumbArg(d), k);
    var e := EmptySlots();
    assert IsFirst(e, IsFree, 0);
    assert o1.shim.tables.buffers == e[0 := Slot(fd, AsInt(handle))];
    DestroyUntracksBeforeCall(o1.shim, fd, handle, k);
    assert IsFirst(o1.shim.tables.buffers, HoldsHandle(AsInt(handle)), 0);
    assert o1.shim.tables.buffers[0 := FreeSlot] == e;
  }

  /** After any interposed call, the corrected cleanup and cleanup() coincide. */
  lemma SafeCleanupAgreesAfterIoctl(s: Shim, fd: int, request: nat, arg: Arg, k: Kernel)
    requires Fits(request, arg)
    ensures var o := Ioctl(s, fd, request, arg, k);
      SafeCleanup(o.shim) == Cleanup(o.shim)
  {
  }
}

=== FILE: drm_abi.dfy ===
/**
 * The slice of the Linux DRM and OMAP DRM user-space interface that the
 * shim reads or writes: integer widths, request numbers and the argument
 * structures, abstracted to records with the named fields.
 */
module DrmAbi {
  import opened Ioc

  type u16 = x: int | 0 <= x < 0x1_0000
  type u32 = x: int | 0 <= x < 0x1_0000_0000
  type u64 = x: int | 0 <= x < 0x1_0000_0000_0000_0000
  type i32 = x: int | -0x8000_0000 <= x < 0x8000_0000

  /** The C conversion of an unsigned 32-bit value to `int` (two's complement). */
  function AsInt(x: u32): (r: i32)
    ensures (r - x) % 0x1_0000_0000 == 0
    ensures 0 <= r <==> x < 0x8000_0000
  {
    if x < 0x8000_0000 then x else x - 0x1_0000_0000
  }

  /** DRM_IOCTL_BASE: the type byte of every DRM request. */
  const DrmType: nat := 'd' as nat
  /** DRM_COMMAND_BASE: first command number reserved for drivers. */
  const DrmCommandBase: nat := 0x40

  /** DRM_IOWR(nr, type) */
  function DrmIowr(nr: nat, size: nat): nat
    requires nr < NrRange && size < SizeRange
  {
    Encode(DirRead + DirWrite, DrmType, nr, size)
  }

  /** DRM_IOW(nr, type) */
  function DrmIow(nr: nat, size: nat): nat
    requires nr < NrRange && size < SizeRange
  {
    Encode(DirWrite, DrmType, nr, size)
  }

  // Request numbers; the second argument is sizeof the argument structure.
  const SetClientCap: nat := DrmIow(0x0D, 16)
  const PrimeHandleToFd: nat := DrmIowr(0x2D, 12)
  const ModeGetCrtc: nat := DrmIowr(0xA1, 104)
  const ModeSetCrtc: nat := DrmIowr(0xA2, 104)
  const ModeGetProperty: nat := DrmIowr(0xAA, 64)
  const ModeAddFb: nat := DrmIowr(0xAE, 28)
  const ModeRmFb: nat := DrmIowr(0xAF, 4)
  const ModeCreateDumb: nat := DrmIowr(0xB2, 32)
  const ModeDestroyDumb: nat := DrmIowr(0xB4, 4)
  const ModeGetPlaneResources: nat := DrmIowr(0xB5, 16)
  const ModeObjGetProperties: nat := DrmIowr(0xB9, 32)
  const ModeAtomic: nat := DrmIowr(0xBC, 56)
  /** DRM_IOCTL_OMAP_GEM_NEW: DRM_COMMAND_BASE + DRM_OMAP_GEM_NEW */
  const OmapGemNew: nat := DrmIowr(DrmCommandBase + 0x03, 16)

  /** Every request the shim recognises carries the DRM type byte. */
  lemma DrmRequestsCarryDrmType()
    ensures TypeOf(SetClientCap) == DrmType && TypeOf(PrimeHandleToFd) == DrmType
    ensures TypeOf(ModeGetCrtc) == DrmType && TypeOf(ModeSetCrtc) == DrmType
    ensures TypeOf(ModeGetProperty) == DrmType && TypeOf(ModeAddFb) == DrmType
    ensures TypeOf(ModeRmFb) == DrmType && TypeOf(ModeCreateDumb) == DrmType
    ensures TypeOf(ModeDestroyDumb) == DrmType && TypeOf(ModeGetPlaneResources) == DrmType
    ensures TypeOf(ModeObjGetProperties) == DrmType && TypeOf(ModeAtomic) == DrmType
    ensures TypeOf(OmapGemNew) == DrmType
  {
  }

  // OMAP buffer-object flags.
  const BoScanout: u32 := 0x1
  const BoWc: u32 := 0x2
  const BoTiledMask: u32 := 0xF00
  const BoTiled16: u32 := 0x200
  const BoTiled32: u32 := 0x300

  /** flags & OMAP_BO_TILED_MASK */
  function TilingOf(flags: u32): (t: u32)
    ensures t % 0x100 == 0 && t <= BoTiledMask
  {
    (flags / 0x100) % 0x10 * 0x100
  }

  const ClientCapAtomic: u64 := 3
  const ObjectPlane: u32 := 0xEEEE_EEEE
  const Rotate270: u64 := 8
  const AtomicNonblock: u32 := 0x200

  /** struct drm_mode_create_dumb */
  datatype CreateDumb = CreateDumb(
    height: u32, width: u32, bpp: u32, flags: u32,
    handle: u32, pitch: u32, size: u64)

  /** struct drm_omap_gem_new with its tiled size; the handle comes back in the reply. */
  datatype GemNew = GemNew(width: u16, height: u16, flags: u32)

  /** struct drm_mode_modeinfo */
  datatype ModeInfo = ModeInfo(
    clock: u32,
    hdisplay: u16, hsyncStart: u16, hsyncEnd: u16, htotal: u16, hskew: u16,
    vdisplay: u16, vsyncStart: u16, vsyncEnd: u16, vtotal: u16, vscan: u16,
    vrefresh: u32, flags: u32, kind: u32, name: string)

  /** struct drm_mode_crtc */
  datatype Crtc = Crtc(
    setConnectorsPtr: u64, countConnectors: u32, crtcId: u32, fbId: u32,
    x: u32, y: u32, gammaSize: u32, modeValid: u32, mode: ModeInfo)

  /** struct drm_mode_fb_cmd */
  datatype FbCmd = FbCmd(
    fbId: u32, width: u32, height: u32, pitch: u32, bpp: u32, depth: u32, handle: u32)

  /** struct drm_prime_handle */
  datatype PrimeHandle = PrimeHandle(handle: u32, flags: u32, fd: i32)

  /** What `argp` points to, by the structure the request number names. */
  datatype Arg =
    | DumbArg(dumb: CreateDumb)
    | DestroyArg(handle: u32)
    | FbIdArg(fbId: u32)
    | CrtcArg(crtc: Crtc)
    | FbCmdArg(cmd: FbCmd)
    | PrimeArg(prime: PrimeHandle)
    | GemNewArg(gem: GemNew)
    | ClientCapArg(capability: u64, value: u64)
    | PlaneResArg(countPlanes: u32)
    | ObjPropsArg(objId: u32, objType: u32, countProps: u32)
    | PropArg(propId: u32)
    | AtomicArg(atomicFlags: u32, objId: u32, propId: u32, value: u64)
    | OtherArg(bytes: seq<bv8>)
}

=== FILE: finalizer.dfy ===
/**
 * The cleanup finalizer: a one-shot routine that closes every exported
 * descriptor, removes every tracked framebuffer, destroys every tracked
 * buffer and finally closes descriptors 0 to 127. Its effect is the
 * sequence of release calls it makes, in order.
 */
module Finalizer {
  import opened Tracking
  import opened ShimState
  import opened Signals

  /** A release call: close(fd), RMFB of a framebuffer, DESTROY_DUMB of a buffer. */
  datatype Event = Close(fd: int) | RemoveFb(fd: int, fbId: int) | DestroyDumb(fd: int, handle: int)

  /** The end of the blunt descriptor sweep. */
  const SweepLimit: nat := 128

  datatype Finalized = Finalized(shim: Shim, events: seq<Event>)

  /** close() for every used entry of a[..n], in ascending order. */
  function ClosesUpTo(a: seq<int>, n: nat): seq<Event>
    requires n <= |a|
  {
    if n == 0 then []
    else ClosesUpTo(a, n - 1) + (if a[n - 1] != Free then [Close(a[n - 1])] else [])
  }

  /** One release call per occupied slot of t[i..], from the highest index down. */
  function DrainFrom(t: seq<Slot>, i: nat, release: Slot -> Event): seq<Event>
    requires i <= |t|
    decreases |t| - i
  {
    if i == |t| then []
    else DrainFrom(t, i + 1, release) + (if !IsFree(t[i]) then [release(t[i])] else [])
  }

  function ReleaseFb(s: Slot): Event {
    RemoveFb(s.fd, s.handle)
  }

  function ReleaseBuffer(s: Slot): Event {
    DestroyDumb(s.fd, s.handle)
  }

  /** close(0) .. close(n - 1) */
  function Sweep(n: nat): seq<Event> {
    if n == 0 then [] else Sweep(n - 1) + [Close(n - 1)]
  }

  /** After RMFB, cleanup overwrites the framebuffer slot's handle with -1. */
  function ForgetHandles(t: seq<Slot>): (r: seq<Slot>)
    ensures |r| == |t|
  {
    seq(|t|, i requires 0 <= i < |t| => if IsFree(t[i]) then t[i] else t[i].(handle := Free))
  }

  /** cleanup(), as the library's destructor and the exit path of the guard handler run it. */
  function Cleanup(s: Shim): (r: Finalized)
    ensures r.shim.cleanupStarted
    ensures s.cleanupStarted ==> r == Finalized(s, [])
  {
    if s.cleanupStarted then Finalized(s, [])
    else
      var t := s.tables;
      Finalized(
        s.(cleanupStarted := true, tables := t.(framebuffers := ForgetHandles(t.framebuffers))),
        ClosesUpTo(t.exported, |t.exported|)
          + DrainFrom(t.framebuffers, 0, ReleaseFb)
          + DrainFrom(t.buffers, 0, ReleaseBuffer)
          + Sweep(SweepLimit))
  }

  /** The four loops of cleanup(), index by index. */
  method RunCleanup(s: Shim) returns (r: Shim, events: seq<Event>)
    ensures Finalized(r, events) == Cleanup(s)
  {
    if s.cleanupStarted {
      return s, [];
    }
    var t := s.tables;
    events := [];
    var i := 0;
    while i < |t.exported|
      invariant 0 <= i <= |t.exported|
      invariant events == ClosesUpTo(t.exported, i)
    {
      if t.exported[i] != Free {
        events := events + [Close(t.exported[i])];
      }
      i := i + 1;
    }
    var fbs := t.framebuffers;
    var j := |fbs|;
    while j > 0
      invariant 0 <= j <= |fbs| == |t.framebuffers|
      invariant events == ClosesUpTo(t.exported, |t.exported|) + DrainFrom(t.framebuffers, j, ReleaseFb)
      invariant forall k :: 0 <= k < |fbs| ==>
        fbs[k] == if k < j || IsFree(t.framebuffers[k]) then t.framebuffers[k] else t.framebuffers[k].(handle := Free)
    {
      j := j - 1;
      if fbs[j].fd != Free {
        events := events + [RemoveFb(fbs[j].fd, fbs[j].handle)];
        fbs := fbs[j := fbs[j].(handle := Free)];
      }
    }
    var bufs := t.buffers;
    j := |bufs|;
    while j > 0
      invariant 0 <= j <= |bufs|
      invariant events == ClosesUpTo(t.exported, |t.exported|) + DrainFrom(t.framebuffers, 0, ReleaseFb)
        + DrainFrom(bufs, j, ReleaseBuffer)
    {
      j := j - 1;
      if bufs[j].fd != Free {
        events := events + [DestroyDumb(bufs[j].fd, bufs[j].handle)];
      }
    }
    var fd := 0;
    while fd < SweepLimit
      invariant 0 <= fd <= SweepLimit
      invariant events == ClosesUpTo(t.exported, |t.exported|) + DrainFrom(t.framebuffers, 0, ReleaseFb)
        + DrainFrom(bufs, 0, ReleaseBuffer) + Sweep(fd)
    {
      events := events + [Close(fd)];
      fd := fd + 1;
    }
    assert fbs == ForgetHandles(t.framebuffers);
    r := s.(cleanupStarted := true, tables := t.(framebuffers := fbs));
  }

  /** Running cleanup twice performs the release calls once. */
  lemma CleanupRunsOnce(s: Shim)
    ensures var first := Cleanup(s);
      Cleanup(first.shim) == Finalized(first.shim, [])
  {
  }

  /** The drain releases exactly the occupied slots. */
  lemma {:induction false} DrainContents(t: seq<Slot>, i: nat, release: Slot -> Event)
    requires i <= |t|
    ensures forall e :: e in DrainFrom(t, i, release) <==>
      exists k :: i <= k < |t| && !IsFree(t[k]) && e == release(t[k])
    decreases |t| - i
  {
    if i < |t| {
      DrainContents(t, i + 1, release);
    }
  }

  lemma {:induction false} ClosesContents(a: seq<int>, n: nat)
    requires n <= |a|
    ensures forall e :: e in ClosesUpTo(a, n) <==> exists k :: 0 <= k < n && a[k] != Free && e == Close(a[k])
  {
    if n > 0 {
      ClosesContents(a, n - 1);
    }
  }

  lemma {:induction false} SweepContents(n: nat)
    ensures forall e :: e in Sweep(n) <==> exists fd :: 0 <= fd < n && e == Close(fd)
  {
    if n > 0 {
      SweepContents(n - 1);
    }
  }

  /** The release calls of a first cleanup, split by kind. */
  lemma {:induction false} CleanupKinds(s: Shim)
    requires !s.cleanupStarted
    ensures var t := s.tables; var events := Cleanup(s).events;
      && (forall e :: e in events && e.RemoveFb? <==> e in DrainFrom(t.framebuffers, 0, ReleaseFb))
      && (forall e :: e in events && e.DestroyDumb? <==> e in DrainFrom(t.buffers, 0, ReleaseBuffer))
      && (forall e :: e in events && e.Close? <==> e in ClosesUpTo(t.exported, |t.exported|) || e in Sweep(SweepLimit))
  {
    var t := s.tables;
    DrainContents(t.framebuffers, 0, ReleaseFb);
    DrainContents(t.buffers, 0, ReleaseBuffer);
    ClosesContents(t.exported, |t.exported|);
    SweepContents(SweepLimit);
  }

  /**
   * A first cleanup removes every tracked framebuffer and nothing else: an
   * RMFB for every occupied slot, and no RMFB for anything untracked.
   */
  lemma CleanupRemovesTrackedFramebuffers(s: Shim)
    requires !s.cleanupStarted
    ensures var t := s.tables;
      forall fd, id :: RemoveFb(fd, id) in Cleanup(s).events <==>
        exists k :: 0 <= k < |t.framebuffers| && t.framebuffers[k] == Slot(fd, id) && fd != Free
  {
    CleanupKinds(s);
    DrainContents(s.tables.framebuffers, 0, ReleaseFb);
  }

  /**
   * A first cleanup destroys every tracked buffer and nothing else: a
   * DESTROY_DUMB for every occupied slot, and none for anything untracked.
   */
  lemma CleanupDestroysTrackedBuffers(s: Shim)
    requires !s.cleanupStarted
    ensures var t := s.tables;
      forall fd, h :: DestroyDumb(fd, h) in Cleanup(s).events <==>
        exists k :: 0 <= k < |t.buffers| && t.buffers[k] == Slot(fd, h) && fd != Free
  {
    CleanupKinds(s);
    DrainContents(s.tables.buffers, 0, ReleaseBuffer);
  }

  /**
   * A first cleanup closes every exported descriptor and every descriptor
   * below 128, and no other.
   */
  lemma CleanupClosesDescriptors(s: Shim)
    requires !s.cleanupStarted
    ensures var t := s.tables;
      forall fd :: Close(fd) in Cleanup(s).events <==>
        (0 <= fd < SweepLimit || exists k :: 0 <= k < |t.exported| && t.exported[k] == fd && fd != Free)
  {
    CleanupKinds(s);
    ClosesContents(s.tables.exported, |s.tables.exported|);
    SweepContents(SweepLimit);
  }

  /** Every framebuffer removal is issued before any buffer is destroyed. */
  lemma FramebuffersBeforeBuffers(s: Shim)
    ensures var events := Cleanup(s).events;
      forall i, j :: 0 <= i < j < |events| && events[i].DestroyDumb? ==> !events[j].RemoveFb?
  {
    if !s.cleanupStarted {
      var t := s.tables;
      var a := ClosesUpTo(t.exported, |t.exported|);
      var b := DrainFrom(t.framebuffers, 0, ReleaseFb);
      var c := DrainFrom(t.buffers, 0, ReleaseBuffer);
      var d := Sweep(SweepLimit);
      DrainContents(t.framebuffers, 0, ReleaseFb);
      DrainContents(t.buffers, 0, ReleaseBuffer);
      ClosesContents(t.exported, |t.exported|);
      SweepContents(SweepLimit);
      var events := a + b + c + d;
      forall i, j | 0 <= i < j < |events| && events[i].DestroyDumb?
        ensures !events[j].RemoveFb?
      {
        assert events[i] !in a && events[i] !in b && events[i] !in d;
        assert i >= |a| + |b|;
        assert events[j] in c || events[j] in d;
      }
    }
  }

  /**
   * As written, cleanup on a shim whose init() never ran walks the
   * zero-initialised tables: fd 0 is not the free sentinel, so after closing
   * descriptor 0 thirty-two times its next call is an RMFB on fd 0, made
   * through the real-ioctl pointer that only init() resolves.
   */
  lemma CleanupBeforeInitIssuesIoctls(h: Dispositions)
    ensures var s := Loaded(h);
      var ev := Cleanup(s).events;
      && !s.initDone
      && |ev| > MaxBuffers
      && (forall i :: 0 <= i < MaxBuffers ==> ev[i] == Close(0))
      && ev[MaxBuffers] == RemoveFb(0, 0)
  {
    var s := Loaded(h);
    var t := s.tables;
    ClosesOfZeros(t.exported, |t.exported|);
    var drain := DrainFrom(t.framebuffers, 0, ReleaseFb);
    DrainStartsWithLast(t.framebuffers, 0, ReleaseFb);
    assert |drain| > 0 && drain[0] == RemoveFb(0, 0);
  }

  /** Over an all-zero descriptor array, the first loop closes descriptor 0 once per entry. */
  lemma {:induction false} ClosesOfZeros(a: seq<int>, n: nat)
    requires n <= |a|
    requires forall k :: 0 <= k < |a| ==> a[k] == 0
    ensures ClosesUpTo(a, n) == seq(n, i => Close(0))
  {
    if n > 0 {
      ClosesOfZeros(a, n - 1);
    }
  }

  /** A drain whose last slot is occupied releases that slot first. */
  lemma {:induction false} DrainStartsWithLast(t: seq<Slot>, i: nat, release: Slot -> Event)
    requires i < |t| && !IsFree(t[|t| - 1])
    ensures var d := DrainFrom(t, i, release);
      |d| > 0 && d[0] == release(t[|t| - 1])
    decreases |t| - i
  {
    if i + 1 < |t| {
      DrainStartsWithLast(t, i + 1, release);
    }
  }

  lemma {:induction false} DrainOfFreeSlots(t: seq<Slot>, i: nat, release: Slot -> Event)
    requires i <= |t|
    requires forall k :: 0 <= k < |t| ==> IsFree(t[k])
    ensures DrainFrom(t, i, release) == []
    decreases |t| - i
  {
    if i < |t| {
      DrainOfFreeSlots(t, i + 1, release);
    }
  }

  lemma {:induction false} ClosesOfUnused(a: seq<int>, n: nat)
    requires n <= |a|
    requires forall k :: 0 <= k < |a| ==> a[k] == Free
    ensures ClosesUpTo(a, n) == []
  {
    if n > 0 {
      ClosesOfUnused(a, n - 1);
    }
  }

  /** With nothing tracked, a first cleanup only sweeps descriptors 0 to 127. */
  lemma CleanupOfEmptyTables(s: Shim)
    requires s.tables == EmptyTables() && !s.cleanupStarted
    ensures Cleanup(s).events == Sweep(SweepLimit)
    ensures forall e :: e in Cleanup(s).events ==> e.Close?
  {
    var t := s.tables;
    DrainOfFreeSlots(t.framebuffers, 0, ReleaseFb);
    DrainOfFreeSlots(t.buffers, 0, ReleaseBuffer);
    ClosesOfUnused(t.exported, |t.exported|);
    SweepContents(SweepLimit);
  }

  /**
   * Cleanup that treats a shim whose init() never ran as tracking nothing:
   * before init it only sweeps descriptors 0 to 127 and never calls the real
   * ioctl; once init() has run it is cleanup() itself.
   */
  function SafeCleanup(s: Shim): (r: Finalized)
    ensures !s.initDone && !s.cleanupStarted ==> r.events == Sweep(SweepLimit)
    ensures !s.initDone ==> forall e :: e in r.events ==> e.Close?
    ensures s.initDone ==> r == Cleanup(s)
  {
    if s.initDone then Cleanup(s)
    else
      var s' := s.(tables := EmptyTables());
      if s'.cleanupStarted then Cleanup(s')
      else
        CleanupOfEmptyTables(s');
        Cleanup(s')
  }
}

=== FILE: ioc.dfy ===
/**
 * Linux ioctl request numbers, laid out as by the _IOC macro of
 * include/uapi/asm-generic/ioctl.h: bits 0-7 hold the command number,
 * bits 8-15 the type byte, bits 16-29 the size of the argument structure
 * and bits 30-31 the transfer direction.
 */
module Ioc {

  const NrRange: nat := 0x100
  const TypeRange: nat := 0x100
  const SizeRange: nat := 0x4000
  const DirRange: nat := 4

  /** 1 << _IOC_TYPESHIFT, 1 << _IOC_SIZESHIFT, 1 << _IOC_DIRSHIFT */
  const TypeUnit: nat := 0x100
  const SizeUnit: nat := 0x1_0000
  const DirUnit: nat := 0x4000_0000

  const DirWrite: nat := 1
  const DirRead: nat := 2

  predicate ValidFields(dir: nat, typ: nat, nr: nat, size: nat) {
    dir < DirRange && typ < TypeRange && nr < NrRange && size < SizeRange
  }

  /** _IOC(dir, type, nr, size) */
  function Encode(dir: nat, typ: nat, nr: nat, size: nat): (r: nat)
    requires ValidFields(dir, typ, nr, size)
    ensures r < 0x1_0000_0000
  {
    dir * DirUnit + size * SizeUnit + typ * TypeUnit + nr
  }

  /** (request >> _IOC_TYPESHIFT) & _IOC_TYPEMASK */
  function TypeOf(request: nat): (t: nat)
    ensures t < TypeRange
  {
    (request / TypeUnit) % TypeRange
  }

  /** (request >> _IOC_NRSHIFT) & _IOC_NRMASK */
  function NrOf(request: nat): (n: nat)
    ensures n < NrRange
  {
    request % NrRange
  }

  function SizeOf(request: nat): (n: nat)
    ensures n < SizeRange
  {
    (request / SizeUnit) % SizeRange
  }

  function DirOf(request: nat): (n: nat)
    ensures n < DirRange
  {
    (request / DirUnit) % DirRange
  }

  /** Euclidean division recovers quotient and remainder of q * d + r. */
  lemma DivModOf(q: nat, r: nat, d: nat)
    requires r < d
    ensures (q * d + r) / d == q
    ensures (q * d + r) % d == r
  {
    var x := q * d + r;
    var q', r' := x / d, x % d;
    assert x == q' * d + r';
    MulMonotone(q', q, d);
    MulMonotone(q, q', d);
  }

  lemma MulMonotone(a: nat, b: nat, d: nat)
    ensures a < b ==> (a + 1) * d <= b * d
  {
    if a < b {
      assert b * d == (a + 1) * d + (b - a - 1) * d;
    }
  }

  /** (x / a) / b == x / (a * b) */
  lemma DivDiv(x: nat, a: nat, b: nat)
    requires 0 < a && 0 < b
    ensures (x / a) / b == x / (a * b)
  {
    var q := (x / a) / b;
    var r := (x / a) % b;
    assert x / a == q * b + r;
    assert x == (x / a) * a + x % a;
    assert x == q * (a * b) + (r * a + x % a) by {
      assert (q * b + r) * a == q * (a * b) + r * a;
    }
    assert r * a + x % a < a * b by {
      assert r * a <= (b - 1) * a;
    }
    DivModOf(q, r * a + x % a, a * b);
  }

  /** Decoding an encoded request returns the fields it was built from. */
  lemma {:induction false} DecodeEncode(dir: nat, typ: nat, nr: nat, size: nat)
    requires ValidFields(dir, typ, nr, size)
    ensures DirOf(Encode(dir, typ, nr, size)) == dir
    ensures TypeOf(Encode(dir, typ, nr, size)) == typ
    ensures NrOf(Encode(dir, typ, nr, size)) == nr
    ensures SizeOf(Encode(dir, typ, nr, size)) == size
  {
    var x := Encode(dir, typ, nr, size);
    var hi := dir * 0x4000 + size;
    var mid := hi * 0x100 + typ;
    assert x == mid * 0x100 + nr;
    DivModOf(mid, nr, 0x100);
    DivModOf(hi, typ, 0x100);
    assert x == hi * 0x1_0000 + (typ * 0x100 + nr);
    DivModOf(hi, typ * 0x100 + nr, 0x1_0000);
    DivModOf(dir, size, 0x4000);
    assert x == dir * 0x4000_0000 + (size * 0x1_0000 + typ * 0x100 + nr);
    DivModOf(dir, size * 0x1_0000 + typ * 0x100 + nr, 0x4000_0000);
    DivModOf(0, dir, 4);
  }

  /** Every 32-bit request number is the encoding of its own fields. */
  lemma {:induction false} EncodeDecode(request: nat)
    requires request < 0x1_0000_0000
    ensures ValidFields(DirOf(request), TypeOf(request), NrOf(request), SizeOf(request))
    ensures Encode(DirOf(request), TypeOf(request), NrOf(request), SizeOf(request)) == request
  {
    var a := request / 0x100;
    var b := request / 0x1_0000;
    var c := request / 0x4000_0000;
    assert request == a * 0x100 + request % 0x100;
    DivDiv(request, 0x100, 0x100);
    assert a == b * 0x100 + a % 0x100;
    DivDiv(request, 0x1_0000, 0x4000);
    assert b / 0x4000 == c;
    assert b == c * 0x4000 + b % 0x4000;
    assert c < 4;
    DivModOf(0, c, 4);
  }
}

=== FILE: oracle.dfy ===
/**
 * The real `ioctl` reached through the dynamically resolved symbol, as a
 * pure oracle. Each field answers one kind of call whose output the shim
 * reads back; `other` answers every call whose output only the caller sees.
 */
module Oracle {
  import opened DrmAbi

  const MaxPlanes: nat := 16
  const MaxProps: nat := 64

  /** The plane ids the kernel writes into the shim's 16-entry array. */
  type PlaneIds = s: seq<u32> | |s| <= MaxPlanes witness []
  /** The property ids the kernel writes into the shim's 64-entry array. */
  type PropIds = s: seq<u32> | |s| <= MaxProps witness []

  datatype Kernel = Kernel(
    gemNew: (int, GemNew) -> (i32, u32),
    planeResources: int -> (i32, PlaneIds),
    objectProperties: (int, u32) -> (i32, PropIds),
    property: (int, u32) -> (i32, string),
    getCrtc: (int, Crtc) -> (i32, Crtc),
    addFb: (int, FbCmd) -> (i32, FbCmd),
    primeHandleToFd: (int, PrimeHandle) -> (i32, PrimeHandle),
    other: (int, nat, Arg) -> (i32, Arg))

  /** One call made to the real ioctl: device handle, request number, argument. */
  datatype Call = Call(fd: int, request: nat, arg: Arg)
}

=== FILE: rotation.dfy ===
/**
 * The rotation side effect of buffer creation: resolve each plane's
 * "rotation" property (get_rotation_property_key) and commit a 270-degree
 * rotation for every plane that has one.
 */
module Rotation {
  import opened DrmAbi
  import opened Oracle

  const RotationName: string := "rotation"
  /** What the lookup returns when no property is named "rotation". */
  const NoRotation: i32 := -1

  /** The key a lookup produced and the calls it made, in order. */
  datatype Lookup = Lookup(key: i32, issued: seq<Call>)

  function PropertyQuery(fd: int, prop: u32): Call {
    Call(fd, ModeGetProperty, PropArg(prop))
  }

  /** The name query for `prop` succeeds and the name is not "rotation": the scan moves on. */
  ghost predicate Passes(k: Kernel, fd: int, prop: u32) {
    k.property(fd, prop).0 == 0 && k.property(fd, prop).1 != RotationName
  }

  /** The scan over `props` stops at index i. */
  ghost predicate StopsAt(k: Kernel, fd: int, props: seq<u32>, i: int) {
    && 0 <= i < |props|
    && !Passes(k, fd, props[i])
    && forall j :: 0 <= j < i ==> Passes(k, fd, props[j])
  }

  /** What the scan returns when it stops at `prop`: the failed query's result, or the property id. */
  function StopKey(k: Kernel, fd: int, prop: u32): i32 {
    var (ret, _) := k.property(fd, prop);
    if ret != 0 then ret else AsInt(prop)
  }

  /**
   * The loop of get_rotation_property_key over the property ids: query each
   * name in turn, return the first failed query's result or the id of the
   * first property named "rotation", else -1. Only name queries are issued,
   * one per property visited, in order; `ScanStops` says where the scan ends.
   */
  function ScanProperties(k: Kernel, fd: int, props: seq<u32>): (r: Lookup)
    ensures |r.issued| <= |props|
    ensures forall j :: 0 <= j < |r.issued| ==> r.issued[j] == PropertyQuery(fd, props[j])
  {
    if |props| == 0 then Lookup(NoRotation, [])
    else
      var (ret, name) := k.property(fd, props[0]);
      var query := PropertyQuery(fd, props[0]);
      if ret != 0 then Lookup(ret, [query])
      else if name == RotationName then Lookup(AsInt(props[0]), [query])
      else
        var rest := ScanProperties(k, fd, props[1..]);
        Lookup(rest.key, [query] + rest.issued)
  }

  /**
   * Where the scan ends: at the first property whose name query fails or
   * whose name is "rotation", with that stop's key and one query per property
   * up to it; with no such property, -1 after querying every name.
   */
  lemma {:induction false} ScanStops(k: Kernel, fd: int, props: seq<u32>)
    ensures var r := ScanProperties(k, fd, props);
      forall i :: StopsAt(k, fd, props, i) ==> r.key == StopKey(k, fd, props[i]) && |r.issued| == i + 1
    ensures var r := ScanProperties(k, fd, props);
      (forall j :: 0 <= j < |props| ==> Passes(k, fd, props[j])) ==>
        r.key == NoRotation && |r.issued| == |props|
  {
    if |props| > 0 && Passes(k, fd, props[0]) {
      var tail := props[1..];
      ScanStops(k, fd, tail);
      forall i | StopsAt(k, fd, props, i)
        ensures i > 0 && StopsAt(k, fd, tail, i - 1)
      {
        forall j | 0 <= j < i - 1
          ensures Passes(k, fd, tail[j])
        {
          assert tail[j] == props[j + 1];
        }
      }
      if forall j :: 0 <= j < |props| ==> Passes(k, fd, props[j]) {
        assert forall j :: 0 <= j < |tail| ==> Passes(k, fd, tail[j]) by {
          forall j | 0 <= j < |tail|
            ensures Passes(k, fd, tail[j])
          {
            assert tail[j] == props[j + 1];
          }
        }
      }
    }
  }

  function PropertiesQuery(fd: int, plane: u32): Call {
    Call(fd, ModeObjGetProperties, ObjPropsArg(plane, ObjectPlane, MaxProps))
  }

  /**
   * get_rotation_property_key(fd, plane): list the plane's properties (at
   * most 64), returning the query's result if it fails, then scan them.
   */
  function RotationPropertyKey(k: Kernel, fd: int, plane: u32): (r: Lookup)
    ensures k.objectProperties(fd, plane).0 != 0 ==> r == Lookup(k.objectProperties(fd, plane).0, [PropertiesQuery(fd, plane)])
    ensures k.objectProperties(fd, plane).0 == 0 ==>
      var scan := ScanProperties(k, fd, k.objectProperties(fd, plane).1);
      r.key == scan.key && r.issued == [PropertiesQuery(fd, plane)] + scan.issued
    ensures forall c :: c in r.issued ==> c.request in {ModeObjGetProperties, ModeGetProperty}
  {
    var (ret, props) := k.objectProperties(fd, plane);
    var query := PropertiesQuery(fd, plane);
    if ret != 0 then Lookup(ret, [query])
    else
      var scan := ScanProperties(k, fd, props);
      Lookup(scan.key, [query] + scan.issued)
  }

  /** A plane none of whose properties is named "rotation" gets the -1 sentinel. */
  lemma NoRotationProperty(k: Kernel, fd: int, plane: u32)
    requires k.objectProperties(fd, plane).0 == 0
    requires forall p :: p in k.objectProperties(fd, plane).1 ==> Passes(k, fd, p)
    ensures RotationPropertyKey(k, fd, plane).key == NoRotation
  {
    ScanStops(k, fd, k.objectProperties(fd, plane).1);
  }

  /** The atomic commit that sets `prop` of `plane` to a 270-degree rotation, without blocking. */
  function RotateCommit(fd: int, plane: u32, prop: i32): Call
    requires prop >= 0
  {
    Call(fd, ModeAtomic, AtomicArg(AtomicNonblock, plane, prop, Rotate270))
  }

  /** The commit the shim issues for one plane, if its lookup yields a key. */
  function CommitFor(k: Kernel, fd: int, plane: u32): seq<Call> {
    var key := RotationPropertyKey(k, fd, plane).key;
    if key < 0 then [] else [RotateCommit(fd, plane, key)]
  }

  /** The loop over the planes: look up each plane's rotation key and commit it unless negative. */
  function RotatePlanes(k: Kernel, fd: int, planes: seq<u32>): (issued: seq<Call>)
    ensures forall c :: c in issued ==> c.request in {ModeObjGetProperties, ModeGetProperty, ModeAtomic}
  {
    if |planes| == 0 then []
    else
      var lookup := RotationPropertyKey(k, fd, planes[0]);
      lookup.issued + CommitFor(k, fd, planes[0]) + RotatePlanes(k, fd, planes[1..])
  }

  /** The atomic commits among a list of calls. */
  function Commits(calls: seq<Call>): seq<Call> {
    if |calls| == 0 then []
    else (if calls[0].request == ModeAtomic then [calls[0]] else []) + Commits(calls[1..])
  }

  /** One commit per plane whose rotation key is non-negative, in plane order. */
  function ExpectedCommits(k: Kernel, fd: int, planes: seq<u32>): seq<Call> {
    if |planes| == 0 then [] else CommitFor(k, fd, planes[0]) + ExpectedCommits(k, fd, planes[1..])
  }

  lemma {:induction false} CommitsDistributes(a: seq<Call>, b: seq<Call>)
    ensures Commits(a + b) == Commits(a) + Commits(b)
  {
    if |a| > 0 {
      assert (a + b)[1..] == a[1..] + b;
      CommitsDistributes(a[1..], b);
    } else {
      assert a + b == b;
    }
  }

  lemma {:induction false} NoCommitsAmongQueries(calls: seq<Call>)
    requires forall c :: c in calls ==> c.request in {ModeObjGetProperties, ModeGetProperty}
    ensures Commits(calls) == []
  {
    if |calls| > 0 {
      NoCommitsAmongQueries(calls[1..]);
    }
  }

  /**
   * The rotation pass commits exactly the planes whose rotation key resolves,
   * in order, each with the 270-degree value; planes without one are skipped
   * and do not affect the others.
   */
  lemma {:induction false} RotationCommitsResolvedPlanes(k: Kernel, fd: int, planes: seq<u32>)
    ensures Commits(RotatePlanes(k, fd, planes)) == ExpectedCommits(k, fd, planes)
  {
    if |planes| > 0 {
      var queries := RotationPropertyKey(k, fd, planes[0]).issued;
      var commit := CommitFor(k, fd, planes[0]);
      var rest := RotatePlanes(k, fd, planes[1..]);
      assert RotatePlanes(k, fd, planes) == queries + commit + rest;
      CommitsDistributes(queries + commit, rest);
      CommitsDistributes(queries, commit);
      NoCommitsAmongQueries(queries);
      assert Commits(commit) == commit;
      RotationCommitsResolvedPlanes(k, fd, planes[1..]);
    }
  }

  /**
   * The whole side effect of buffer creation: enable the atomic client
   * capability, list up to 16 planes, then rotate each. Neither result is
   * inspected.
   */
  function RotateAll(k: Kernel, fd: int): (issued: seq<Call>)
    ensures |issued| >= 2
    ensures issued[0] == Call(fd, SetClientCap, ClientCapArg(ClientCapAtomic, 1))
    ensures issued[1] == Call(fd, ModeGetPlaneResources, PlaneResArg(MaxPlanes))
    ensures issued[2..] == RotatePlanes(k, fd, k.planeResources(fd).1)
    ensures forall c :: c in issued ==> c.request != ModeCreateDumb
  {
    var (_, planes) := k.planeResources(fd);
    [Call(fd, SetClientCap, ClientCapArg(ClientCapAtomic, 1)),
     Call(fd, ModeGetPlaneResources, PlaneResArg(MaxPlanes))]
      + RotatePlanes(k, fd, planes)
  }
}

=== FILE: seqs.dfy ===
/**
 * First-match search over a sequence. Every table scan of the shim
 * (first free slot, first slot holding a handle, first slot usable for an
 * exported descriptor) is this loop over a fixed array.
 */
module Seqs {
  import opened Wrappers

  /** `i` is the lowest index of `s` whose element satisfies `p`. */
  ghost predicate IsFirst<T>(s: seq<T>, p: T -> bool, i: int) {
    && 0 <= i < |s|
    && p(s[i])
    && forall j :: 0 <= j < i ==> !p(s[j])
  }

  lemma FirstIsUnique<T>(s: seq<T>, p: T -> bool, i: int, j: int)
    requires IsFirst(s, p, i) && IsFirst(s, p, j)
    ensures i == j
  {
  }

  /** The index of the first element satisfying `p`, or None when there is none. */
  function FirstMatch<T>(s: seq<T>, p: T -> bool): (r: Option<nat>)
    ensures r.Some? ==> IsFirst(s, p, r.value)
    ensures r.None? <==> forall j :: 0 <= j < |s| ==> !p(s[j])
  {
    if |s| == 0 then None
    else if p(s[0]) then Some(0)
    else match FirstMatch(s[1..], p)
      case None => None
      case Some(i) => Some(i + 1)
  }
}

=== FILE: shim_state.dfy ===
/**
 * The shim's process-wide state: the init flag, the tracker tables, the
 * process's signal dispositions and the cleanup guard flag.
 */
module ShimState {
  import opened Tracking
  import opened Signals

  datatype Shim = Shim(initDone: bool, tables: Tables, handlers: Dispositions, cleanupStarted: bool)

  /** The state when the library is loaded: flags clear, tables zero-initialised. */
  function Loaded(handlers: Dispositions): Shim {
    Shim(false, ZeroTables(), handlers, false)
  }

  /**
   * init(): on the first call only, set every table entry to -1 and
   * register the guard for the nine fault and termination signals.
   */
  function Init(s: Shim): (r: Shim)
    ensures r.initDone && r.cleanupStarted == s.cleanupStarted
    ensures s.initDone ==> r == s
    ensures !s.initDone ==> r.tables == EmptyTables()
    ensures !s.initDone ==> forall sig ::
      Current(r.handlers, sig) ==
        if IsGuarded(sig) && Current(s.handlers, sig) == Default then Guard else Current(s.handlers, sig)
  {
    if s.initDone then s
    else Shim(true, EmptyTables(), RegisterAll(s.handlers, GuardedOrder), s.cleanupStarted)
  }

  /** init() runs its body once: a second call changes nothing. */
  lemma InitIdempotent(s: Shim)
    ensures Init(Init(s)) == Init(s)
  {
  }

  /** The invariant of an initialised shim. */
  ghost predicate Valid(s: Shim) {
    s.initDone ==> WellFormed(s.tables) && Guarded(s.handlers)
  }

  lemma InitValid(s: Shim)
    requires Valid(s)
    ensures Valid(Init(s))
  {
    if !s.initDone {
      EmptyTablesWellFormed();
      RegisterAllGuards(s.handlers);
    }
  }
}

=== FILE: signals.dfy ===
/**
 * The signal guard: which handler the interposed signal() asks the real
 * signal() to install, and the handlers init() registers through
 * register_handler.
 */
module Signals {

  /** A signal disposition: SIG_DFL, SIG_IGN, the shim's signal_handler, or the caller's own. */
  datatype Handler = Default | Ignore | Guard | Custom(id: nat)

  // Linux signal numbers.
  const SigInt: int := 2
  const SigQuit: int := 3
  const SigIll: int := 4
  const SigAbrt: int := 6
  const SigBus: int := 7
  const SigFpe: int := 8
  const SigSegv: int := 11
  const SigTerm: int := 15
  const SigSys: int := 31

  /** The fault and termination signals, in the order init() registers them. */
  const GuardedOrder: seq<int> :=
    [SigFpe, SigIll, SigSegv, SigBus, SigAbrt, SigSys, SigTerm, SigInt, SigQuit]

  predicate IsGuarded(signum: int) {
    signum in GuardedOrder
  }

  /** The process's signal dispositions; a signal absent from the map has SIG_DFL. */
  type Dispositions = map<int, Handler>

  function Current(d: Dispositions, signum: int): Handler {
    if signum in d then d[signum] else Default
  }

  /**
   * signal(signum, handler): the handler passed on to the real signal().
   * An explicit handler passes through; a request for SIG_DFL is replaced by
   * the guard for the nine guarded signals only.
   */
  function Substitute(signum: int, handler: Handler): (r: Handler)
    ensures handler != Default ==> r == handler
    ensures handler == Default ==> (r == Guard <==> IsGuarded(signum))
    ensures r == handler || r == Guard
  {
    if handler != Default then handler
    else match signum
      case 8 => Guard   // SIGFPE
      case 4 => Guard   // SIGILL
      case 11 => Guard  // SIGSEGV
      case 7 => Guard   // SIGBUS
      case 6 => Guard   // SIGABRT
      case 31 => Guard  // SIGSYS
      case 15 => Guard  // SIGTERM
      case 2 => Guard   // SIGINT
      case 3 => Guard   // SIGQUIT
      case _ => handler
  }

  /** signal(): install the substituted handler and return the previous one. */
  function Signal(d: Dispositions, signum: int, handler: Handler): (r: (Handler, Dispositions))
    ensures r.0 == Current(d, signum)
    ensures Current(r.1, signum) == Substitute(signum, handler)
    ensures forall s :: s != signum ==> Current(r.1, s) == Current(d, s)
  {
    (Current(d, signum), d[signum := Substitute(signum, handler)])
  }

  /** register_handler: install the guard only over SIG_DFL, never over another handler. */
  function Register(d: Dispositions, signum: int): (r: Dispositions)
    ensures Current(r, signum) == if Current(d, signum) == Default then Guard else Current(d, signum)
    ensures forall s :: s != signum ==> Current(r, s) == Current(d, s)
  {
    if Current(d, signum) == Default then d[signum := Guard] else d
  }

  /** register_handler over each signal of `signums`, in order. */
  function RegisterAll(d: Dispositions, signums: seq<int>): (r: Dispositions)
    ensures forall s :: s in signums ==>
      Current(r, s) == if Current(d, s) == Default then Guard else Current(d, s)
    ensures forall s :: s !in signums ==> Current(r, s) == Current(d, s)
    decreases |signums|
  {
    if |signums| == 0 then d
    else
      var r := RegisterAll(Register(d, signums[0]), signums[1..]);
      assert forall s :: s in signums <==> s == signums[0] || s in signums[1..];
      r
  }

  /** No guarded signal is left with SIG_DFL. */
  ghost predicate Guarded(d: Dispositions) {
    forall s :: IsGuarded(s) ==> Current(d, s) != Default
  }

  /** After init's registrations every guarded signal is caught. */
  lemma RegisterAllGuards(d: Dispositions)
    ensures Guarded(RegisterAll(d, GuardedOrder))
  {
  }

  /** signal() never hands a guarded signal back to SIG_DFL. */
  lemma {:induction false} SignalKeepsGuard(d: Dispositions, signum: int, handler: Handler)
    requires Guarded(d)
    ensures Guarded(Signal(d, signum, handler).1)
  {
    var r := Signal(d, signum, handler).1;
    forall s | IsGuarded(s)
      ensures Current(r, s) != Default
    {
      if s == signum {
        assert Current(r, s) == Substitute(signum, handler);
      }
    }
  }

  /**
   * Asking for SIG_DFL on a fault signal installs the guard; a custom handler
   * registered afterwards is installed verbatim.
   */
  lemma DefaultThenCustom(d: Dispositions, id: nat)
    ensures var (_, d1) := Signal(d, SigSegv, Default);
      Current(d1, SigSegv) == Guard &&
      var (prev, d2) := Signal(d1, SigSegv, Custom(id));
      prev == Guard && Current(d2, SigSegv) == Custom(id)
  {
  }
}

=== FILE: tiled_alloc.dfy ===
/**
 * The CREATE_DUMB rewrite: the generic dumb-buffer request becomes an OMAP
 * GEM_NEW request for a TILER buffer 8192 pixels wide, and the caller's
 * structure is filled in from the tiled allocation.
 */
module TiledAlloc {
  import opened DrmAbi

  /** The allocation width the TILER path is always given. */
  const FixedWidth: u16 := 8192

  /** Bytes per pixel of an OMAP tiling mode; 0 for untiled. */
  function TexelBytes(tiling: u32): nat {
    if tiling == 0x100 then 1
    else if tiling == BoTiled16 then 2
    else if tiling == BoTiled32 then 4
    else 0
  }

  /**
   * Whether the 16-bit tiling is chosen: yes for 16 bpp; 32 bpp and every
   * unsupported depth (logged as a warning) get the 32-bit tiling.
   */
  function SixteenBpp(bpp: u32): bool {
    if bpp == 32 then false
    else if bpp == 16 then true
    else false
  }

  /**
   * The GEM_NEW request built from a CREATE_DUMB request. The flags word is
   * the bitwise or of disjoint bits, written here as their sum; the tiled
   * height field is 16 bits wide.
   */
  function TiledRequest(d: CreateDumb): (g: GemNew)
    ensures g.width == FixedWidth
    ensures g.height == d.height % 0x1_0000
    ensures d.height < 0x1_0000 ==> g.height == d.height
    ensures TilingOf(g.flags) == if d.bpp == 16 then BoTiled16 else BoTiled32
    ensures g.flags % 0x100 == BoWc + BoScanout
    ensures g.flags == TilingOf(g.flags) + BoWc + BoScanout
  {
    var tiling := if SixteenBpp(d.bpp) then BoTiled16 else BoTiled32;
    GemNew(FixedWidth, d.height % 0x1_0000, tiling + BoWc + BoScanout)
  }

  /**
   * The caller's CREATE_DUMB structure after the rewrite: handle from
   * GEM_NEW, pitch for the tiled width, size = pitch * height in 32-bit
   * unsigned arithmetic; nothing else changes.
   */
  function WriteBack(d: CreateDumb, handle: u32): (r: CreateDumb)
    ensures r == d.(handle := handle, pitch := r.pitch, size := r.size)
    ensures r.pitch == TexelBytes(TilingOf(TiledRequest(d).flags)) * TiledRequest(d).width
    ensures d.bpp == 16 || d.bpp == 32 ==> r.pitch == d.bpp / 8 * FixedWidth
    ensures r.size == (r.pitch * d.height) % 0x1_0000_0000
    ensures r.pitch * d.height < 0x1_0000_0000 ==> r.size == r.pitch * d.height
  {
    var pitch := if SixteenBpp(d.bpp) then 2 * FixedWidth else 4 * FixedWidth;
    d.(handle := handle, pitch := pitch, size := (pitch * d.height) % 0x1_0000_0000)
  }

  /** A 1920x1080 buffer at 32 bpp gets pitch 4 * 8192 and size pitch * 1080. */
  lemma FullHdScenario(handle: u32)
    ensures var r := WriteBack(CreateDumb(1080, 1920, 32, 0, 0, 0, 0), handle);
      r.pitch == 32768 && r.size == 32768 * 1080 && r.handle == handle
  {
  }
}

=== FILE: tracking.dfy ===
/**
 * The resource tracker: two fixed arrays of 32 (fd, handle) slots, one for
 * tiled buffers and one for framebuffers, and one fixed array of 32 exported
 * descriptors. A slot is free when its fd is -1; nothing is allocated.
 */
module Tracking {
  import opened Wrappers
  import opened Seqs

  const MaxBuffers: nat := 32
  /** The sentinel of a free slot and of an unused descriptor entry. */
  const Free: int := -1

  datatype Slot = Slot(fd: int, handle: int)

  const FreeSlot: Slot := Slot(Free, Free)

  predicate IsFree(s: Slot) {
    s.fd == Free
  }

  function HoldsHandle(handle: int): Slot -> bool {
    (s: Slot) => s.handle == handle
  }

  /** Free slots are fully cleared, as init and removal leave them. */
  ghost predicate Clean(t: seq<Slot>) {
    forall i :: 0 <= i < |t| && IsFree(t[i]) ==> t[i] == FreeSlot
  }

  /**
   * add_buffer / add_framebuffer: store (fd, handle) in the lowest free slot;
   * a full table is left as it is.
   */
  function Insert(t: seq<Slot>, fd: int, handle: int): (r: seq<Slot>)
    ensures |r| == |t|
    ensures forall i :: IsFirst(t, IsFree, i) ==> r == t[i := Slot(fd, handle)]
    ensures (forall i :: 0 <= i < |t| ==> !IsFree(t[i])) ==> r == t
  {
    match FirstMatch(t, IsFree)
    case None => t
    case Some(i) =>
      assert forall j :: IsFirst(t, IsFree, j) ==> j == i by {
        forall j | IsFirst(t, IsFree, j) {
          FirstIsUnique(t, IsFree, i, j);
        }
      }
      t[i := Slot(fd, handle)]
  }

  /**
   * remove_buffer / remove_framebuffer: clear the first slot whose handle
   * matches, whatever its fd; no match leaves the table as it is.
   */
  function Remove(t: seq<Slot>, handle: int): (r: seq<Slot>)
    ensures |r| == |t|
    ensures forall i :: IsFirst(t, HoldsHandle(handle), i) ==> r == t[i := FreeSlot]
    ensures (forall i :: 0 <= i < |t| ==> t[i].handle != handle) ==> r == t
  {
    match FirstMatch(t, HoldsHandle(handle))
    case None => t
    case Some(i) =>
      assert forall j :: IsFirst(t, HoldsHandle(handle), j) ==> j == i by {
        forall j | IsFirst(t, HoldsHandle(handle), j) {
          FirstIsUnique(t, HoldsHandle(handle), i, j);
        }
      }
      t[i := FreeSlot]
  }

  /** The loop of add_buffer, slot by slot. */
  method InsertScan(t: seq<Slot>, fd: int, handle: int) returns (r: seq<Slot>)
    ensures r == Insert(t, fd, handle)
  {
    var i := 0;
    while i < |t|
      invariant 0 <= i <= |t|
      invariant forall j :: 0 <= j < i ==> !IsFree(t[j])
    {
      if t[i].fd == Free {
        assert IsFirst(t, IsFree, i);
        return t[i := Slot(fd, handle)];
      }
      i := i + 1;
    }
    return t;
  }

  /** The loop of remove_buffer, slot by slot. */
  method RemoveScan(t: seq<Slot>, handle: int) returns (r: seq<Slot>)
    ensures r == Remove(t, handle)
  {
    var i := 0;
    while i < |t|
      invariant 0 <= i <= |t|
      invariant forall j :: 0 <= j < i ==> t[j].handle != handle
    {
      if t[i].handle == handle {
        assert IsFirst(t, HoldsHandle(handle), i);
        return t[i := FreeSlot];
      }
      i := i + 1;
    }
    return t;
  }

  lemma InsertKeepsClean(t: seq<Slot>, fd: int, handle: int)
    requires Clean(t) && fd != Free
    ensures Clean(Insert(t, fd, handle))
  {
  }

  lemma RemoveKeepsClean(t: seq<Slot>, handle: int)
    requires Clean(t)
    ensures Clean(Remove(t, handle))
  {
  }

  /**
   * Removing the handle just inserted restores the table, provided there was
   * room and no slot already held that handle.
   */
  lemma {:induction false} InsertThenRemove(t: seq<Slot>, fd: int, handle: int)
    requires Clean(t)
    requires exists i :: 0 <= i < |t| && IsFree(t[i])
    requires forall i :: 0 <= i < |t| ==> t[i].handle != handle
    ensures Remove(Insert(t, fd, handle), handle) == t
  {
    var i :| 0 <= i < |t| && IsFree(t[i]);
    var f := FirstMatch(t, IsFree);
    var k := f.value;
    var u := Insert(t, fd, handle);
    assert u == t[k := Slot(fd, handle)];
    assert IsFirst(u, HoldsHandle(handle), k);
    assert Remove(u, handle) == u[k := FreeSlot];
  }

  /** Nothing keeps a handle from being tracked twice. */
  lemma DuplicateEntriesPossible()
    ensures var t := Insert(Insert(EmptySlots(), 3, 7), 3, 7);
      t[0] == Slot(3, 7) && t[1] == Slot(3, 7)
  {
    var t1 := Insert(EmptySlots(), 3, 7);
    assert IsFirst(EmptySlots(), IsFree, 0);
    assert IsFirst(t1, IsFree, 1);
  }

  function EmptySlots(): seq<Slot> {
    seq(MaxBuffers, i => FreeSlot)
  }

  // ---------------------------------------------------------------------
  // Exported descriptors (handle_fd).

  function ClaimsEntry(fd: int): int -> bool {
    (x: int) => x == Free || x == fd
  }

  /**
   * add_handle_fd: write fd into the first entry that is unused or already
   * holds fd; with neither, nothing changes.
   */
  function RecordFd(a: seq<int>, fd: int): (r: seq<int>)
    ensures |r| == |a|
    ensures forall i :: IsFirst(a, ClaimsEntry(fd), i) ==> r == a[i := fd]
    ensures (forall i :: 0 <= i < |a| ==> a[i] != Free && a[i] != fd) ==> r == a
  {
    match FirstMatch(a, ClaimsEntry(fd))
    case None => a
    case Some(i) =>
      assert forall j :: IsFirst(a, ClaimsEntry(fd), j) ==> j == i by {
        forall j | IsFirst(a, ClaimsEntry(fd), j) {
          FirstIsUnique(a, ClaimsEntry(fd), i, j);
        }
      }
      a[i := fd]
  }

  /** The loop of add_handle_fd, entry by entry. */
  method RecordFdScan(a: seq<int>, fd: int) returns (r: seq<int>)
    ensures r == RecordFd(a, fd)
  {
    var i := 0;
    while i < |a|
      invariant 0 <= i <= |a|
      invariant forall j :: 0 <= j < i ==> a[j] != Free && a[j] != fd
    {
      if a[i] == Free || a[i] == fd {
        assert IsFirst(a, ClaimsEntry(fd), i);
        return a[i := fd];
      }
      i := i + 1;
    }
    return a;
  }

  /**
   * The shape handle_fd keeps: distinct descriptors first, then only unused
   * entries.
   */
  ghost predicate Packed(a: seq<int>) {
    && (forall i, j :: 0 <= i < j < |a| && a[i] == Free ==> a[j] == Free)
    && (forall i, j :: 0 <= i < j < |a| && a[i] != Free ==> a[i] != a[j])
  }

  function NoDescriptors(): seq<int> {
    seq(MaxBuffers, i => Free)
  }

  lemma NoDescriptorsPacked()
    ensures Packed(NoDescriptors())
  {
  }

  /** Recording the unused sentinel never changes the array. */
  lemma {:induction false} RecordFreeIsNoOp(a: seq<int>)
    ensures RecordFd(a, Free) == a
  {
    match FirstMatch(a, ClaimsEntry(Free))
    case None =>
    case Some(i) =>
      assert a[i] == Free;
      assert a[i := Free] == a;
  }

  /** Recording a descriptor already present leaves a packed array unchanged. */
  lemma {:induction false} RecordPresentIsNoOp(a: seq<int>, fd: int)
    requires Packed(a) && fd in a
    ensures RecordFd(a, fd) == a
  {
    var j :| 0 <= j < |a| && a[j] == fd;
    var f := FirstMatch(a, ClaimsEntry(fd));
    assert ClaimsEntry(fd)(a[j]);
    var i := f.value;
    assert i <= j;
    assert a[i] == fd;
    assert a[i := fd] == a;
  }

  /** Recording keeps the array packed. */
  lemma {:induction false} RecordKeepsPacked(a: seq<int>, fd: int)
    requires Packed(a)
    ensures Packed(RecordFd(a, fd))
  {
    if fd == Free {
      RecordFreeIsNoOp(a);
    } else if fd in a {
      RecordPresentIsNoOp(a, fd);
    } else {
      match FirstMatch(a, ClaimsEntry(fd))
      case None =>
      case Some(i) =>
        var r := a[i := fd];
        assert a[i] == Free;
        assert forall j :: 0 <= j < i ==> a[j] != Free;
        assert forall j :: i < j < |a| ==> a[j] == Free;
        assert forall p, q :: 0 <= p < q < |r| && r[p] == Free ==> r[q] == Free by {
          forall p, q | 0 <= p < q < |r| && r[p] == Free
            ensures r[q] == Free
          {
            assert p > i;
          }
        }
    }
  }

  /**
   * Recording a descriptor into an array with room adds exactly that
   * descriptor to the set recorded.
   */
  lemma {:induction false} RecordAdds(a: seq<int>, fd: int)
    requires fd != Free && Free in a
    ensures forall x :: x != Free ==> (x in RecordFd(a, fd) <==> x in a || x == fd)
  {
    var k :| 0 <= k < |a| && a[k] == Free;
    assert ClaimsEntry(fd)(a[k]);
    var i := FirstMatch(a, ClaimsEntry(fd)).value;
    var r := a[i := fd];
    assert a[i] == Free || a[i] == fd;
    forall x | x != Free
      ensures x in r <==> x in a || x == fd
    {
      if x in a {
        var m :| 0 <= m < |a| && a[m] == x;
        if m != i {
          assert r[m] == x;
        }
      }
      if x in r {
        var m :| 0 <= m < |r| && r[m] == x;
        if m != i {
          assert a[m] == x;
        }
      }
      assert r[i] == fd;
    }
  }

  /** Recording into a packed array that is full and lacks fd changes nothing. */
  lemma RecordIntoFullIsNoOp(a: seq<int>, fd: int)
    requires Free !in a && fd !in a
    ensures RecordFd(a, fd) == a
  {
  }

  /** Any sequence of recordings from the all-unused state stays packed. */
  lemma {:induction false} RecordSequenceKeepsPacked(a: seq<int>, fds: seq<int>)
    requires Packed(a)
    ensures Packed(RecordAll(a, fds))
    decreases |fds|
  {
    if |fds| > 0 {
      RecordKeepsPacked(a, fds[0]);
      RecordSequenceKeepsPacked(RecordFd(a, fds[0]), fds[1..]);
    }
  }

  function RecordAll(a: seq<int>, fds: seq<int>): seq<int>
    decreases |fds|
  {
    if |fds| == 0 then a else RecordAll(RecordFd(a, fds[0]), fds[1..])
  }

  // ---------------------------------------------------------------------
  // The three tables together.

  datatype Tables = Tables(buffers: seq<Slot>, framebuffers: seq<Slot>, exported: seq<int>)

  /** The tables as init() leaves them: every entry -1. */
  function EmptyTables(): Tables {
    Tables(EmptySlots(), EmptySlots(), NoDescriptors())
  }

  /** The tables as the loader leaves them before init(): zero-initialised globals. */
  function ZeroTables(): Tables {
    Tables(seq(MaxBuffers, i => Slot(0, 0)), seq(MaxBuffers, i => Slot(0, 0)), seq(MaxBuffers, i => 0))
  }

  /** The invariant the dispatcher keeps once init() has run. */
  ghost predicate WellFormed(t: Tables) {
    && |t.buffers| == MaxBuffers && |t.framebuffers| == MaxBuffers && |t.exported| == MaxBuffers
    && Clean(t.buffers) && Clean(t.framebuffers) && Packed(t.exported)
  }

  lemma EmptyTablesWellFormed()
    ensures WellFormed(EmptyTables())
  {
  }
}

=== FILE: wrappers.dfy ===
/** The optional value returned by the shim's table searches. */
module Wrappers {

  datatype Option<+T> = None | Some(value: T)
}
